=== FILE: README.md ===
# CelebrateMate wish dispatcher — a Dafny model

CelebrateMate lets a user schedule a "wish": a message to a recipient, due at a
date and a minute, delivered by SMS (Twilio) and/or email (SendGrid or SMTP).
The server (`server/index.js`) has two parts that share one column,
`sent_at`, of the `event` table:

- the REST routes that create, update and delete events and register and edit
  users (module `Store`);
- the per-minute job that selects the unsent events due this minute, tries
  each channel, and writes `sent_at` when at least one went through (module
  `Dispatcher`, properties in `DispatchProperties`, `Lifecycle` and `Scenarios`).

Email goes through the helper `sendEmail` of `server/index.js` (module
`Mailer`). It uses the SendGrid wrapper `sendSimpleEmail` of
`server/sendEmail.js` (module `SendEmail`) or an SMTP transporter.

Everything is a pure function. The clock, the database's parsing of DATE and
TIME strings, bcrypt, and every provider and query outcome are inputs:

- `Clock` is today's day number, the minute of the day in the server's fixed
  time zone, and the value NOW() writes.
- `Outcomes` gives, per event id, how the Twilio, SendGrid, SMTP and
  `sent_at` calls end, and whether the selection query fails.
- `Parsers` is how the database reads DATE and TIME literals.

JavaScript values that the code tests for truthiness are `Val = Undefined |
Null | Str(s)`, truthy only when a non-empty string (module `JsValues`). This
matches the client, which submits `''` for fields left blank.

Behaviour worth knowing:

- When every channel fails, the loop leaves `sent_at` NULL and logs that the
  event is left so it can retry next minute (`server/index.js:476`). The
  selection window is the current minute only, so no later tick selects the
  event again (`FailedEventIsNotRetriedLater`).
- The window's upper bound is the next minute formatted on the clock face. At
  23:59 it wraps to 00:00, so nothing is ever selected at 23:59
  (`NothingDueAtLastMinute`).
- The `sent_at` write is not guarded by `sent_at IS NULL` (`MarkOne`
  overwrites). A tick still never changes a `sent_at` that is set, because
  the selector excludes such events (`DispatchKeepsSentAt`).
- An unconfigured email backend throws NO_EMAIL_TRANSPORT rather than
  returning a failure value. The loop catches it, so it counts as a failed
  email.
- `sendSimpleEmail` reports a provider failure by returning `{ok: false}`,
  and `sendEmail` returns that value without looking at `ok`. So a SendGrid
  rejection counts as a delivered email and the event is marked sent
  (`SendGridRejectionMarksSent`).
- `sendSimpleEmail` does throw in one case. If the provider rejects with
  `null` or `undefined`, its catch block reads `err.message` of a nullish
  value and throws. That case counts as a failed email (`SendSimpleEmail`,
  `Deliver`).
- The selection query joins the owner's user row. An event whose owner row
  is missing is never selected (`Due`).

## Model

| member | source | states |
|---|---|---|
| SendEmail.BuildMessage | server/sendEmail.js:19-24 | `to`, `subject` and `html` pass through; `from` is the caller's when truthy, else SENDGRID_SENDER_EMAIL; the message has a truthy `from` iff one of the two is truthy |
| SendEmail.Normalise | server/sendEmail.js:32 | the error payload is the response body when it is present and non-empty, else `err.message` when truthy, else the error itself |
| SendEmail.SendSimpleEmail | server/sendEmail.js:18-35 | provider success resolves `{ok: true, status}` with the provider's status code; any rejection by an error object resolves `{ok: false, error}` with the normalised payload; the call throws iff the rejection is nullish; `ok` is true iff the provider accepted |
| Mailer.SelectBackend | server/index.js:66-81 | SendGrid iff the wrapper module loaded and SENDGRID_API_KEY is set; SMTP iff the module is absent and EMAIL and EMAIL_PASS are set; a loaded module without a key yields no transport even with SMTP credentials |
| Mailer.SendEmailCall | server/index.js:351-377 | the call throws NO_EMAIL_TRANSPORT iff no backend; it throws through SendGrid only on a nullish rejection, and through SMTP iff the transporter rejects; via SendGrid it resolves to exactly what `sendSimpleEmail` returns for the request's to, subject, html and from, whose `ok` is true iff SendGrid accepted; the SMTP options carry the request's from, to, subject and html, and `replyTo` iff it is truthy |
| Mailer.SendGridFailureResolves | server/index.js:352-355 | with SendGrid active, a rejection by an error object makes `sendEmail` return a `{ok: false}` value instead of throwing |
| Store.Register | server/index.js:96-126 | 400 iff one of name/email/phone/password is falsy; otherwise 409 iff a user has that email; both leave the store unchanged; otherwise exactly one user is added under a fresh id, with the hashed password |
| Store.RegisterKeepsEmailsUnique | server/index.js:104-116 | registration preserves "no two users share a truthy email" |
| Store.UpdateProfile | server/index.js:303-318 | always 200; overwrites name, email and phone of the caller's row (absent fields become NULL), keeps the password and every other row; no row for the caller changes nothing |
| Store.UpdateProfileCanDuplicateEmails | server/index.js:307-311 | there is a store with unique emails that a profile update turns into one with a duplicate email |
| Store.CreateEvent | server/index.js:163-183 | 400 iff name, date or time is falsy; 500 iff the database rejects the date or time; both leave the store unchanged; otherwise exactly one event is added under a fresh id, owned by the caller, holding the submitted name, type, mobile, email and message (absent ones NULL), the parsed date and time, and NULL `sent_at`, and no other event changes |
| Store.UpdateEvent | server/index.js:244-266 | 500 on a rejected date/time, else 404 iff the id is unknown, both with the store unchanged; on 200 the seven fields are overwritten (absent ones become NULL) while `sent_at`, owner and every other event are unchanged |
| Store.DeleteEvent | server/index.js:268-283 | 404 iff the id is unknown, store unchanged; otherwise exactly that event is removed and the others keep their values |
| Window.InWindowIff | server/index.js:394-397 | a time is inside minute `m`'s window iff it falls within minute `m` and `m` is not 23:59 |
| Window.LastMinuteWindowEmpty | server/index.js:397 | the 23:59 window, `[23:59:00, 00:00:00)`, holds no time |
| Window.WindowsDisjoint | server/index.js:394-397 | a time lies in at most one minute's window |
| Window.EarlierTimesHaveAWindow | server/index.js:394-397 | every time before 23:59:00 lies in the window of its own minute |
| Dispatcher.Due | server/index.js:388-397 | an event is selected iff it exists, its date is today, it has a time in the current minute, the minute is not 23:59, `sent_at` is NULL and its owner row exists |
| Dispatcher.SentNeverDue | server/index.js:395 | an event with `sent_at` set is never selected |
| Dispatcher.NothingDueAtLastMinute | server/index.js:397 | at 23:59 nothing is selected |
| Dispatcher.Deliver | server/index.js:405-465 | SMS is tried iff mobile, Twilio client and TWILIO_PHONE are all present, is sent to the mobile from TWILIO_PHONE with the message and the owner's name, and succeeds iff Twilio accepts it; email is tried iff the event's email is truthy, through the `sendEmail` call built from the row, and succeeds iff that call returns: via SendGrid unless the rejection is nullish, via SMTP iff it accepts, never without a backend |
| Dispatcher.MarkOne | server/index.js:470 | the `sent_at` write sets that event's `sent_at` to NOW whatever it held, and changes nothing else |
| Dispatcher.Dispatch | server/index.js:379-482 | a tick changes only `sent_at`, only from NULL to the tick's stamp, and exactly on the selected events whose delivery had some success and whose write succeeded; a failed selection changes nothing |
| Dispatcher.RunTick | server/index.js:405-478 | the row loop, processing the fetched rows in any order in which the database returns them, ends in the store `Dispatch` describes; a failed `sent_at` write does not stop later rows |
| DispatchProperties.MarkedIffSomeChannel | server/index.js:405-477 | after a tick, `sent_at` is set iff it was set before, or the event was selected, SMS or email went through and the write succeeded |
| DispatchProperties.EmailIndependentOfSms | server/index.js:409-465 | the email outcome does not depend on the SMS outcome |
| DispatchProperties.SmsFailureEmailSuccessMarks | server/index.js:409-461 | a failed SMS with a successful email still marks the event sent |
| DispatchProperties.NoContactNeverMarked | server/index.js:407-477 | an event with neither mobile nor email is never changed by a tick |
| DispatchProperties.SendGridRejectionMarksSent | server/index.js:453-461 | a SendGrid rejection by an error object gives `{ok: false}` to the loop, which counts it as an email success and marks the event sent |
| DispatchProperties.FailedEventIsNotRetriedLater | server/index.js:475-477 | when no channel succeeds, `sent_at` stays NULL and no tick of another minute or day selects the event |
| DispatchProperties.DueInOneMinuteOnly | server/index.js:393-397 | two clocks that both select an event agree on day and minute |
| DispatchProperties.FromAddressIsFirstTruthy | server/index.js:431 | the from-address is the first truthy of SENDGRID_SENDER_EMAIL, EMAIL, FROM_ADDRESS and the owner's email, else EMAIL |
| DispatchProperties.SendGridMessageOfRow | server/index.js:452-459 | SendGrid receives the event's address, the subject "A Thoughtful Wish Just for You - " plus the type or "Greetings", and the composed `"name" <address>` sender, which is always truthy, so the wrapper's default sender never applies |
| DispatchProperties.SmtpOptionsOfRow | server/index.js:368-376 | the transporter receives the event's address, the composed sender and the occasion subject, with the owner's email as reply-to iff it is truthy |
| DispatchProperties.SmsBodyParts | server/index.js:412-416 | the SMS goes to the mobile number from TWILIO_PHONE, and its body splits into the message, `"\n\n- "` and the owner's name |
| Lifecycle.EditedSentEventNeverSelected | server/index.js:248-253 | an event already sent, edited to any date and time, is never selected again |
| Lifecycle.RescheduledPendingEventIsDue | server/index.js:248-253 | after a successful edit, a pending event with an existing owner is selected exactly in the minute of its new time on its new date, unless that minute is 23:59 |
| Lifecycle.CreatedEventDueAtItsMinute | server/index.js:172-175 | a successful create parses both submitted strings, and the new event of an existing user is selected exactly on the parsed date at the minute of the parsed time, unless that minute is 23:59 |
| Lifecycle.DeletedEventNeverSelected | server/index.js:272 | a deleted event is never selected |
| Lifecycle.DispatchKeepsSentAt | server/index.js:468-474 | a tick keeps the id counters valid and never changes an event whose `sent_at` is already set |
| Scenarios.BothChannelsAtNine | server/index.js:405-474 | a wish due at 09:00 with a phone and an email, all providers succeeding, is selected at 09:00, gets both channels and is marked with the tick's stamp |
| Scenarios.EmailOnlyWish | server/index.js:409-465 | without a phone number no SMS is attempted, and the wish is marked iff the email went through |
| Scenarios.NineOhOneBoundary | server/index.js:394-397 | a wish at 09:01:00 is outside the 09:00 window and inside the 09:01 one |

## Left out

- Express routing, CORS, JSON parsing and the authorization middleware. The authenticated user id is a parameter of the routes that use it. The update and delete routes take no caller, matching their lack of authorization.
- bcrypt and JWT issuance are foreign and cryptographic. `Register` takes the hash as a function and does not model the token. Token issuance (`server/index.js:118`) runs after the INSERT, so if it fails the route answers 500 with the user already added. That case is not modelled.
- Store.RegisterKeepsEmailsUnique: each route is one atomic transition. In the source, the duplicate check (`server/index.js:104`) and the INSERT (`server/index.js:113`) are separated by two awaits on bcrypt. Two concurrent registrations with the same email can both pass the check, and both users are added. The model has no UNIQUE constraint that would stop this.
- The read-only routes (dashboard, login, is_verify, fetch_event, savedcontact, event by id, myprofile) and the password change. They do not feed the dispatcher.
- SQL text, the connection pool and database failures other than rejected DATE/TIME input. A route whose query fails for another reason answers 500 with the store unchanged; the model does not generate that case.
- Database constraints the schema may impose (NOT NULL, UNIQUE, foreign keys). The table definitions are not part of this model.
- Store.UpdateEvent: a non-numeric `:id` parameter makes the query fail with 500; ids are modelled as integers.
- moment-timezone and the real clock. The current day and minute are inputs, read in the fixed zone of `server/index.js:380`.
- Window.NextMinute: assumes the server process runs in a zone without daylight-saving changes (UTC, or Asia/Kolkata itself). The upper bound at `server/index.js:397` parses `HH:mm` in the process's own local zone, without `.tz(...)`. On a day when that zone changes its clocks, the bounds of the minutes around the change differ from `(m + 1) % 1440`. Spring-forward under America/New_York turns 01:59 into 03:00, so wishes for 02:00–02:59 go out early. A non-existent local time such as 02:30 is moved forward an hour, so its window becomes `[02:30:00, 03:31:00)`, and these windows overlap. Fall-back turns 01:59 into 01:00, which leaves that window empty.
- The Twilio, SendGrid and nodemailer network calls, modelled as outcome inputs. This includes SendGrid's `setApiKey` at module load, and the `response` field returned next to `status`.
- The HTML body's markup. `WishHtml` keeps only the interpolated values in their order.
- Logging, including the Twilio 21608 "unverified number" warning, which only logs.
- node-cron timing and overlapping ticks. One tick is one function application; the row loop is sequential as in the source.
- Dispatcher.Dispatch: NOW() is a single `stamp` per tick. In the source each `sent_at` update takes its own statement time.
- Rows deleted or edited by a route while a tick is running, which would need concurrency.
- The heartbeat endpoint.

=== FILE: dispatch_properties.dfy ===
/**
 Properties of one dispatcher tick: when an event gets marked sent, how the
 two channels interact, what reaches the email providers, and the
 consequence of the SendGrid wrapper reporting failure by a returned value.
 */
module DispatchProperties {
  import opened JsValues
  import opened Window
  import opened Store
  import SendEmail
  import opened Mailer
  import opened Dispatcher

  /** After a tick an event carries a `sent_at` exactly when it already did,
      or it was selected, one of its channels went through and the write of
      `sent_at` succeeded. */
  lemma MarkedIffSomeChannel(db: Db, now: Clock, cfg: Config, o: Outcomes, id: int)
    requires id in db.events
    ensures var r := Dispatch(db, now, cfg, o);
            r.events[id].sentAt.Some? <==>
              || db.events[id].sentAt.Some?
              || (&& !o.selectFails
                  && id in Due(db, now)
                  && (SmsWentThrough(JoinRow(db, id), cfg, o) || EmailWentThrough(JoinRow(db, id), cfg, o))
                  && o.markWrite(id))
  {
    var r := Dispatch(db, now, cfg, o);
    if id in Due(db, now) {
      var d := Deliver(JoinRow(db, id), cfg, o);
      assert SentAny(d) <==> SmsWentThrough(JoinRow(db, id), cfg, o) || EmailWentThrough(JoinRow(db, id), cfg, o);
    }
    if r.events[id] == db.events[id] {
      assert r.events[id].sentAt == db.events[id].sentAt;
    }
  }

  /** The email attempt does not depend on how the SMS attempt ended. */
  lemma EmailIndependentOfSms(row: Row, cfg: Config, o: Outcomes, sms: int -> bool)
    ensures Deliver(row, cfg, o).email == Deliver(row, cfg, o.(sms := sms)).email
  {
  }

  /** A failed SMS does not keep an event from being marked when its email
      went through. */
  lemma SmsFailureEmailSuccessMarks(db: Db, now: Clock, cfg: Config, o: Outcomes, id: int)
    requires !o.selectFails && id in Due(db, now)
    requires !o.sms(id)
    requires EmailWentThrough(JoinRow(db, id), cfg, o)
    requires o.markWrite(id)
    ensures Dispatch(db, now, cfg, o).events[id].sentAt == Some(now.stamp)
  {
    MarkedIffSomeChannel(db, now, cfg, o, id);
  }

  /** An event with neither a mobile number nor an email address is never
      marked. */
  lemma NoContactNeverMarked(db: Db, now: Clock, cfg: Config, o: Outcomes, id: int)
    requires id in db.events
    requires !Truthy(db.events[id].mobile) && !Truthy(db.events[id].email)
    ensures Dispatch(db, now, cfg, o).events[id] == db.events[id]
  {
    if !o.selectFails && id in Due(db, now) {
      assert !SentAny(Deliver(JoinRow(db, id), cfg, o));
    }
  }

  /** SendGrid rejecting the mail with an error object still counts as an
      email success: the wrapper resolves with `{ok: false}`, `sendEmail`
      returns it, and the event is marked sent. */
  lemma SendGridRejectionMarksSent(
    db: Db, now: Clock, cfg: Config, o: Outcomes, id: int, body: Option<string>, message: Val)
    requires SelectBackend(cfg) == SendGrid
    requires !o.selectFails && id in Due(db, now)
    requires Truthy(db.events[id].email)
    requires o.sendgrid(id) == SendEmail.Rejected(SendEmail.ErrorObject(body, message))
    requires o.markWrite(id)
    ensures var call := EmailCallOf(JoinRow(db, id), cfg, o);
            call.ViaSendGrid? && call.attempt.call == SendEmail.Resolves(SendEmail.NotOk(SendEmail.Normalise(o.sendgrid(id).err)))
    ensures Dispatch(db, now, cfg, o).events[id].sentAt == Some(now.stamp)
  {
    MarkedIffSomeChannel(db, now, cfg, o, id);
  }

  /** When every attempted channel fails, the event stays pending, and no
      later tick (another minute, or another day) selects it again. */
  lemma FailedEventIsNotRetriedLater(
    db: Db, now: Clock, cfg: Config, o: Outcomes, id: int, later: Clock)
    requires !o.selectFails && id in Due(db, now)
    requires !SentAny(Deliver(JoinRow(db, id), cfg, o))
    requires later.today != now.today || later.minute != now.minute
    ensures Dispatch(db, now, cfg, o).events[id].sentAt.None?
    ensures id !in Due(Dispatch(db, now, cfg, o), later)
  {
    var r := Dispatch(db, now, cfg, o);
    assert r.events[id] == db.events[id];
  }

  /** An event is due in at most one minute: two clocks that both select it
      name the same day and minute. */
  lemma DueInOneMinuteOnly(db: Db, now1: Clock, now2: Clock, id: int)
    requires id in Due(db, now1) && id in Due(db, now2)
    ensures now1.today == now2.today && now1.minute == now2.minute
  {
    WindowsDisjoint(db.events[id].time.value, now1.minute, now2.minute);
  }

  /** The `fromAddress` chain picks the first truthy of
      SENDGRID_SENDER_EMAIL, EMAIL, FROM_ADDRESS and the owner's email, and
      falls back to EMAIL (itself falsy then). */
  lemma FromAddressIsFirstTruthy(env: Env, senderEmail: Val)
    ensures FromAddress(env, senderEmail) ==
              FirstTruthy([env.sendgridSenderEmail, env.email, env.fromAddress, senderEmail], env.email)
  {
    var vs := [env.sendgridSenderEmail, env.email, env.fromAddress, senderEmail];
    var last := env.email;
    assert vs[1..] == [env.email, env.fromAddress, senderEmail];
    assert vs[1..][1..] == [env.fromAddress, senderEmail];
    assert vs[1..][1..][1..] == [senderEmail];
    assert vs[1..][1..][1..][1..] == [];
    if !Truthy(vs[0]) {
      assert FirstTruthy(vs, last) == FirstTruthy(vs[1..], last);
      if !Truthy(vs[1]) {
        assert FirstTruthy(vs[1..], last) == FirstTruthy(vs[1..][1..], last);
        if !Truthy(vs[2]) {
          assert FirstTruthy(vs[1..][1..], last) == FirstTruthy(vs[1..][1..][1..], last);
          assert FirstTruthy(vs[1..][1..][1..], last) == Or(senderEmail, last);
        }
      }
    }
  }

  /** What SendGrid receives for a due event: the event's address, the
      subject decorated with its occasion, and the composed `"name" <address>`
      sender, so the wrapper's SENDGRID_SENDER_EMAIL default never applies.
      The owner's reply-to address is not passed on. */
  lemma SendGridMessageOfRow(row: Row, cfg: Config, o: Outcomes)
    requires SelectBackend(cfg) == SendGrid
    requires EmailCallOf(row, cfg, o).ViaSendGrid?
    ensures var m := EmailCallOf(row, cfg, o).attempt.message;
            && m.to == row.event.email
            && m.from == Str(FromHeader(row.senderName, FromAddress(cfg.env, row.senderEmail)))
            && Truthy(m.from)
            && m.subject == Str(SubjectPrefix + (if Truthy(row.event.kind) then row.event.kind.s else "Greetings"))
  {
    var h := FromHeader(row.senderName, FromAddress(cfg.env, row.senderEmail));
    assert h[0] == '"';
  }

  /** What the SMTP transporter receives: same recipient, sender and subject,
      and the owner's email as reply-to exactly when it is truthy. */
  lemma SmtpOptionsOfRow(row: Row, cfg: Config, o: Outcomes)
    requires SelectBackend(cfg) == Smtp && o.smtp(row.id)
    ensures var c := EmailCallOf(row, cfg, o);
            && c.ViaSmtp?
            && c.options.to == row.event.email
            && c.options.from == Str(FromHeader(row.senderName, FromAddress(cfg.env, row.senderEmail)))
            && c.options.subject == Str(SubjectPrefix + (if Truthy(row.event.kind) then row.event.kind.s else "Greetings"))
            && (c.options.replyTo == Some(row.senderEmail) <==> Truthy(row.senderEmail))
            && (c.options.replyTo == None <==> !Truthy(row.senderEmail))
  {
  }

  /** The SMS goes to the event's mobile number from TWILIO_PHONE; its body
      is the message, the separator and the owner's name, and the message can
      be read back off its front. */
  lemma SmsBodyParts(row: Row, cfg: Config)
    ensures SmsRequestOf(row, cfg).to == row.event.mobile
    ensures SmsRequestOf(row, cfg).from == cfg.env.twilioPhone
    ensures var b := SmsRequestOf(row, cfg).body;
            && |b| == |Render(row.event.message)| + |SmsSignature| + |Render(row.senderName)|
            && b[..|Render(row.event.message)|] == Render(row.event.message)
            && b[|Render(row.event.message)|..|Render(row.event.message)| + |SmsSignature|] == SmsSignature
            && b[|Render(row.event.message)| + |SmsSignature|..] == Render(row.senderName)
  {
  }
}

=== FILE: dispatcher.dfy ===
/**
 The per-minute wish dispatcher of server/index.js: select the events due in
 the current minute that have not been sent, try SMS and email for each, and
 write `sent_at` for those where at least one channel went through.

 The clock, the database and the providers are parameters: `Clock` is the
 moment the job fires (in the server's fixed time zone), `Outcomes` says how
 each external call ends for each event id.
 */
module Dispatcher {
  import opened JsValues
  import opened Window
  import opened Store
  import SendEmail
  import opened Mailer

  /** The moment a tick fires: today's day number, the minute of the day, and
      the value the database's NOW() writes into `sent_at`. */
  datatype Clock = Clock(today: int, minute: Minute, stamp: int)

  /** How each external call of a tick ends. `selectFails`: the selection
      query fails. `sms(id)`: Twilio accepts the event's SMS. `sendgrid(id)`:
      SendGrid's answer to the event's mail. `smtp(id)`: the SMTP transporter
      accepts it. `markWrite(id)`: the `sent_at` update succeeds. */
  datatype Outcomes = Outcomes(
    selectFails: bool,
    sms: int -> bool,
    sendgrid: int -> SendEmail.Provider,
    smtp: int -> bool,
    markWrite: int -> bool)

  // ------------------------------------------------------------------
  // Selection

  /** The WHERE clause of the selection query, plus its inner join with the
      owner's user row. */
  predicate IsDue(db: Db, id: int, now: Clock)
    requires id in db.events
  {
    var e := db.events[id];
    && e.date == Some(now.today)
    && e.time.Some?
    && InWindow(e.time.value, now.minute)
    && e.sentAt.None?
    && e.owner in db.users
  }

  /** The selector picks exactly the unsent events of today whose time falls
      in the current minute, except at 23:59, and whose owner exists. */
  function Due(db: Db, now: Clock): (ids: set<int>)
    ensures forall id :: id in ids <==>
              && id in db.events
              && db.events[id].date == Some(now.today)
              && db.events[id].time.Some?
              && now.minute < MinutesPerDay - 1
              && db.events[id].time.value / SecondsPerMinute == now.minute
              && db.events[id].sentAt.None?
              && db.events[id].owner in db.users
  {
    assert forall id | id in db.events && db.events[id].time.Some? ::
             InWindow(db.events[id].time.value, now.minute) <==>
               now.minute < MinutesPerDay - 1 && db.events[id].time.value / SecondsPerMinute == now.minute
    by {
      forall id | id in db.events && db.events[id].time.Some?
        ensures InWindow(db.events[id].time.value, now.minute) <==>
                  now.minute < MinutesPerDay - 1 && db.events[id].time.value / SecondsPerMinute == now.minute
      {
        InWindowIff(db.events[id].time.value, now.minute);
      }
    }
    set id | id in db.events && IsDue(db, id, now)
  }

  /** An event already marked sent is never selected. */
  lemma SentNeverDue(db: Db, now: Clock, id: int)
    requires id in db.events && db.events[id].sentAt.Some?
    ensures id !in Due(db, now)
  {
  }

  /** Nothing is selected at 23:59: the upper bound wraps to 00:00. */
  lemma NothingDueAtLastMinute(db: Db, now: Clock)
    requires now.minute == MinutesPerDay - 1
    ensures Due(db, now) == {}
  {
    forall id | id in db.events && db.events[id].time.Some?
      ensures !IsDue(db, id, now)
    {
      LastMinuteWindowEmpty(db.events[id].time.value);
    }
  }

  // ------------------------------------------------------------------
  // One selected row and what is sent for it

  /** A selected row: the event and its owner's `name`/`email` as
      `sender_name`/`sender_email`. */
  datatype Row = Row(id: int, event: Event, senderName: Val, senderEmail: Val)

  function JoinRow(db: Db, id: int): Row
    requires id in db.events && db.events[id].owner in db.users
  {
    var e := db.events[id];
    Row(id, e, db.users[e.owner].name, db.users[e.owner].email)
  }

  datatype SmsRequest = SmsRequest(to: Val, from: Val, body: string)

  const SmsSignature: string := "\n\n- "
  const SubjectPrefix: string := "A Thoughtful Wish Just for You - "
  const DefaultOccasion: string := "Greetings"

  function SmsBody(message: Val, senderName: Val): string {
    Render(message) + SmsSignature + Render(senderName)
  }

  function Subject(kind: Val): string {
    SubjectPrefix + (if Truthy(kind) then kind.s else DefaultOccasion)
  }

  /** The `fromAddress` fallback chain of the email branch. */
  function FromAddress(env: Env, senderEmail: Val): Val {
    Or(Or(Or(env.sendgridSenderEmail, env.email), env.fromAddress), Or(senderEmail, env.email))
  }

  /** The `"name" <address>` string passed as `from`. */
  function FromHeader(senderName: Val, address: Val): string {
    "\"" + Render(senderName) + "\" <" + Render(address) + ">"
  }

  /** The values interpolated into the HTML body, in order of appearance. */
  function WishHtml(row: Row): string {
    Render(row.event.message) + Render(row.senderName) + Render(row.senderEmail)
      + Render(row.senderEmail) + Render(row.senderName)
  }

  /** The SMS is attempted when the row has a mobile number, the Twilio
      client exists and TWILIO_PHONE is set. */
  predicate SmsApplies(row: Row, cfg: Config) {
    Truthy(row.event.mobile) && HasTwilioClient(cfg) && Truthy(cfg.env.twilioPhone)
  }

  /** Whether one channel's call for the row went through, stated from the
      configuration and the providers' answers alone. */
  predicate SmsWentThrough(row: Row, cfg: Config, o: Outcomes) {
    SmsApplies(row, cfg) && o.sms(row.id)
  }

  predicate EmailWentThrough(row: Row, cfg: Config, o: Outcomes) {
    && Truthy(row.event.email)
    && match SelectBackend(cfg)
       case SendGrid => o.sendgrid(row.id) != SendEmail.Rejected(SendEmail.NullishError)
       case Smtp => o.smtp(row.id)
       case NoTransport => false
  }

  function SmsRequestOf(row: Row, cfg: Config): SmsRequest {
    SmsRequest(row.event.mobile, cfg.env.twilioPhone, SmsBody(row.event.message, row.senderName))
  }

  function EmailRequestOf(row: Row, cfg: Config): EmailRequest {
    EmailRequest(
      row.event.email,
      Str(FromHeader(row.senderName, FromAddress(cfg.env, row.senderEmail))),
      Str(Subject(row.event.kind)),
      Str(WishHtml(row)),
      row.senderEmail)
  }

  function EmailCallOf(row: Row, cfg: Config, o: Outcomes): EmailCall {
    SendEmailCall(cfg, EmailRequestOf(row, cfg), o.sendgrid(row.id), o.smtp(row.id))
  }

  datatype Channel = NotAttempted | Succeeded | Failed

  /** Both channel attempts of one row: how each ended, the SMS handed to
      Twilio and how the `sendEmail` call went, when attempted. */
  datatype Delivery = Delivery(
    sms: Channel, smsSent: Option<SmsRequest>,
    email: Channel, emailCall: Option<EmailCall>)

  /** The loop body's two channel attempts: a channel counts as a success when
      its call returns without throwing. */
  function Deliver(row: Row, cfg: Config, o: Outcomes): (d: Delivery)
    ensures d.sms != NotAttempted <==> SmsApplies(row, cfg)
    ensures d.smsSent.Some? <==> d.sms != NotAttempted
    ensures d.smsSent.Some? ==>
              && d.smsSent.value.to == row.event.mobile
              && d.smsSent.value.from == cfg.env.twilioPhone
              && d.smsSent.value.body == Render(row.event.message) + SmsSignature + Render(row.senderName)
    ensures d.emailCall.Some? <==> d.email != NotAttempted
    ensures d.emailCall.Some? ==>
              && d.emailCall.value == EmailCallOf(row, cfg, o)
              && (d.email == Succeeded <==> !d.emailCall.value.Threw?)
    ensures d.sms == Succeeded <==> SmsWentThrough(row, cfg, o)
    ensures d.email != NotAttempted <==> Truthy(row.event.email)
    ensures d.email == Succeeded <==> EmailWentThrough(row, cfg, o)
  {
    var smsSent := if SmsApplies(row, cfg) then Some(SmsRequestOf(row, cfg)) else None;
    var sms :=
      if !SmsApplies(row, cfg) then NotAttempted
      else if o.sms(row.id) then Succeeded
      else Failed;
    var emailCall := if Truthy(row.event.email) then Some(EmailCallOf(row, cfg, o)) else None;
    var email :=
      match emailCall
      case None => NotAttempted
      case Some(call) => if call.Threw? then Failed else Succeeded;
    Delivery(sms, smsSent, email, emailCall)
  }

  /** `sentAny` after both attempts. */
  predicate SentAny(d: Delivery) {
    d.sms == Succeeded || d.email == Succeeded
  }

  // ------------------------------------------------------------------
  // Marking sent

  /** `UPDATE event SET sent_at = NOW() WHERE id = $1`: no guard on the
      current `sent_at`, no effect on a missing row. */
  function MarkOne(db: Db, id: int, stamp: int): (r: Db)
    ensures r.users == db.users && r.events.Keys == db.events.Keys
    ensures r.nextUser == db.nextUser && r.nextEvent == db.nextEvent
    ensures forall k :: k in db.events && k != id ==> r.events[k] == db.events[k]
    ensures id in db.events ==> r.events[id] == db.events[id].(sentAt := Some(stamp))
  {
    if id in db.events then db.(events := db.events[id := db.events[id].(sentAt := Some(stamp))])
    else db
  }

  /** `sent_at` set to `stamp` on every event of `ids`. */
  function MarkSet(db: Db, ids: set<int>, stamp: int): Db {
    db.(events := map k | k in db.events :: if k in ids then db.events[k].(sentAt := Some(stamp)) else db.events[k])
  }

  /** The selected event `id` is marked: some channel succeeded and the
      update did not fail. */
  predicate ShouldMark(db: Db, id: int, cfg: Config, o: Outcomes)
    requires id in db.events && db.events[id].owner in db.users
  {
    SentAny(Deliver(JoinRow(db, id), cfg, o)) && o.markWrite(id)
  }

  function Marked(db: Db, now: Clock, cfg: Config, o: Outcomes): set<int> {
    set id | id in Due(db, now) && ShouldMark(db, id, cfg, o)
  }

  /** The effect of one tick on the store, independent of the order the rows
      come back in. */
  function Dispatch(db: Db, now: Clock, cfg: Config, o: Outcomes): (r: Db)
    ensures r.users == db.users && r.events.Keys == db.events.Keys
    ensures r.nextUser == db.nextUser && r.nextEvent == db.nextEvent
    ensures forall id :: id in db.events ==>
              r.events[id] == db.events[id].(sentAt := r.events[id].sentAt)
    ensures forall id :: id in db.events ==>
              (r.events[id] != db.events[id] <==>
                 !o.selectFails && id in Due(db, now) && ShouldMark(db, id, cfg, o))
    ensures forall id :: id in db.events && r.events[id] != db.events[id] ==>
              db.events[id].sentAt.None? && r.events[id].sentAt == Some(now.stamp)
  {
    if o.selectFails then db else MarkSet(db, Marked(db, now, cfg, o), now.stamp)
  }

  /** The tick as server/index.js runs it: the rows in the order the database
      returned them (`order`, any enumeration of the due ids), each processed
      from the fetched row and recorded on the current store. */
  method RunTick(db: Db, now: Clock, cfg: Config, o: Outcomes, order: seq<int>) returns (r: Db)
    requires forall i :: 0 <= i < |order| ==> order[i] in Due(db, now)
    requires forall id :: id in Due(db, now) ==> id in order
    ensures r == Dispatch(db, now, cfg, o)
  {
    if o.selectFails {
      return db;
    }
    r := db;
    var i := 0;
    while i < |order|
      invariant 0 <= i <= |order|
      invariant r == MarkSet(db, Marked(db, now, cfg, o) * Elements(order[..i]), now.stamp)
    {
      var id := order[i];
      var row := JoinRow(db, id);
      var delivery := Deliver(row, cfg, o);
      ghost var before := Marked(db, now, cfg, o) * Elements(order[..i]);
      ghost var after := Marked(db, now, cfg, o) * Elements(order[..i + 1]);
      assert order[..i + 1] == order[..i] + [id];
      if SentAny(delivery) && o.markWrite(id) {
        assert after == before + {id};
        MarkSetAdd(db, before, id, now.stamp);
        r := MarkOne(r, id, now.stamp);
      } else {
        assert after == before;
      }
      i := i + 1;
    }
    assert order[..|order|] == order;
    assert Marked(db, now, cfg, o) * Elements(order) == Marked(db, now, cfg, o);
  }

  function Elements(s: seq<int>): set<int> {
    set k | k in s
  }

  lemma MarkSetAdd(db: Db, ids: set<int>, id: int, stamp: int)
    requires id in db.events
    ensures MarkOne(MarkSet(db, ids, stamp), id, stamp) == MarkSet(db, ids + {id}, stamp)
  {
    var lhs := MarkOne(MarkSet(db, ids, stamp), id, stamp);
    var rhs := MarkSet(db, ids + {id}, stamp);
    assert lhs.events == rhs.events;
  }
}

=== FILE: js_values.dfy ===
/**
 JavaScript string-ish values as the server sees them: fields of a JSON request
 body, columns read back from the database and environment variables. Each is
 either `undefined`, `null` or a string, and the server only ever tests them
 for truthiness (`!x`, `x || y`) or interpolates them into template literals.
 */
module JsValues {

  datatype Val = Undefined | Null | Str(s: string)

  /** A value that may be missing: a SQL NULL column, an absent response body. */
  datatype Option<T> = None | Some(value: T)

  /** JavaScript truthiness restricted to `Val`: only a non-empty string is truthy. */
  predicate Truthy(v: Val) {
    v.Str? && v.s != ""
  }

  /** The `a || b` operator. */
  function Or(a: Val, b: Val): Val {
    if Truthy(a) then a else b
  }

  /** What `${v}` produces inside a template literal. */
  function Render(v: Val): string {
    match v
    case Undefined => "undefined"
    case Null => "null"
    case Str(s) => s
  }

  /** node-postgres sends an `undefined` query parameter as SQL NULL. */
  function Stored(v: Val): Val {
    if v.Undefined? then Null else v
  }

  /** The first truthy value of `vs`, or `last` when there is none: an
      independent reading of a chain `vs[0] || vs[1] || ... || last`. */
  function FirstTruthy(vs: seq<Val>, last: Val): (r: Val)
    ensures Truthy(r) ==> r == last || r in vs
    ensures (exists i :: 0 <= i < |vs| && Truthy(vs[i])) ==> Truthy(r)
    ensures (forall i :: 0 <= i < |vs| ==> !Truthy(vs[i])) ==> r == last
    ensures forall i :: 0 <= i < |vs| && Truthy(vs[i]) && (forall j :: 0 <= j < i ==> !Truthy(vs[j])) ==>
              r == vs[i]
    decreases |vs|
  {
    if |vs| == 0 then last
    else if Truthy(vs[0]) then vs[0]
    else FirstTruthy(vs[1..], last)
  }
}

=== FILE: lifecycle.dfy ===
/**
 How the event routes and the dispatcher interact through an event's
 `date`, `time` and `sent_at` columns.
 */
module Lifecycle {
  import opened JsValues
  import opened Window
  import opened Store
  import opened Mailer
  import opened Dispatcher

  /** Editing an event that was already sent, to any date and time, leaves
      `sent_at` set, so no tick selects it again. */
  lemma EditedSentEventNeverSelected(db: Db, id: int, f: EventForm, p: Parsers, now: Clock)
    requires id in db.events && db.events[id].sentAt.Some?
    ensures id !in Due(UpdateEvent(db, id, f, p).db, now)
  {
    var r := UpdateEvent(db, id, f, p);
    assert r.db.events[id].sentAt == db.events[id].sentAt;
  }

  /** Editing a pending event to a date `d` and a time `t` before 23:59 makes
      it due in exactly the minute of `t` on `d`, provided its owner exists. */
  lemma RescheduledPendingEventIsDue(db: Db, id: int, f: EventForm, p: Parsers, now: Clock)
    requires id in db.events && db.events[id].sentAt.None? && db.events[id].owner in db.users
    requires UpdateEvent(db, id, f, p).status == 200
    ensures var e := UpdateEvent(db, id, f, p).db.events[id];
            id in Due(UpdateEvent(db, id, f, p).db, now) <==>
              && e.date == Some(now.today)
              && e.time.Some?
              && e.time.value < (MinutesPerDay - 1) * SecondsPerMinute
              && e.time.value / SecondsPerMinute == now.minute
  {
  }

  /** A newly created event, owned by an existing user, is selected exactly at
      the minute of the submitted time on the submitted date (never when that
      minute is 23:59). */
  lemma CreatedEventDueAtItsMinute(db: Db, caller: int, f: EventForm, p: Parsers, now: Clock)
    requires Valid(db) && caller in db.users
    requires CreateEvent(db, caller, f, p).status == 201
    ensures p.date(f.date.s).Some? && p.time(f.time.s).Some?
    ensures db.nextEvent in Due(CreateEvent(db, caller, f, p).db, now) <==>
              && p.date(f.date.s) == Some(now.today)
              && now.minute < MinutesPerDay - 1
              && p.time(f.time.s).value / SecondsPerMinute == now.minute
  {
  }

  /** A deleted event is never selected. */
  lemma DeletedEventNeverSelected(db: Db, id: int, now: Clock)
    ensures id !in Due(DeleteEvent(db, id).db, now)
  {
  }

  /** A tick keeps the SERIAL counters valid and never clears or changes a
      `sent_at` that is already set. */
  lemma DispatchKeepsSentAt(db: Db, now: Clock, cfg: Config, o: Outcomes)
    requires Valid(db)
    ensures Valid(Dispatch(db, now, cfg, o))
    ensures forall id :: id in db.events && db.events[id].sentAt.Some? ==>
              Dispatch(db, now, cfg, o).events[id] == db.events[id]
  {
  }
}

=== FILE: mailer.dfy ===
/**
 Process configuration and the server's email helper (server/index.js): which
 provider clients exist after start-up, and `sendEmail`, which routes a mail to
 SendGrid, to the SMTP transporter, or fails with NO_EMAIL_TRANSPORT.
 */
module Mailer {
  import opened JsValues
  import SendEmail

  /** The environment variables the dispatcher reads (`undefined` when unset). */
  datatype Env = Env(
    sendgridApiKey: Val,
    sendgridSenderEmail: Val,
    email: Val,
    emailPass: Val,
    fromAddress: Val,
    twilioSid: Val,
    twilioAuth: Val,
    twilioPhone: Val)

  /** Start-up state: the environment, whether `require('./sendEmail')`
      succeeded, and whether constructing the Twilio client succeeded when it
      was attempted. */
  datatype Config = Config(env: Env, sendgridModuleLoaded: bool, twilioInitOk: bool)

  /** The backend `sendEmail` uses for every call of the process's lifetime. */
  datatype Backend = SendGrid | Smtp | NoTransport

  /** The Twilio client exists when SID and auth token are set and the
      constructor did not throw. */
  predicate HasTwilioClient(cfg: Config) {
    Truthy(cfg.env.twilioSid) && Truthy(cfg.env.twilioAuth) && cfg.twilioInitOk
  }

  /** The nodemailer transporter is created only when the SendGrid module is
      absent and EMAIL and EMAIL_PASS are both set. */
  predicate HasTransporter(cfg: Config) {
    !cfg.sendgridModuleLoaded && Truthy(cfg.env.email) && Truthy(cfg.env.emailPass)
  }

  /** The branch `sendEmail` takes: SendGrid first, then the transporter. */
  function SelectBackend(cfg: Config): (b: Backend)
    ensures b == SendGrid <==> cfg.sendgridModuleLoaded && Truthy(cfg.env.sendgridApiKey)
    ensures b == Smtp <==>
              !cfg.sendgridModuleLoaded && Truthy(cfg.env.email) && Truthy(cfg.env.emailPass)
    ensures cfg.sendgridModuleLoaded && !Truthy(cfg.env.sendgridApiKey) ==> b == NoTransport
  {
    if cfg.sendgridModuleLoaded && Truthy(cfg.env.sendgridApiKey) then SendGrid
    else if HasTransporter(cfg) then Smtp
    else NoTransport
  }

  /** The argument of `sendEmail`. */
  datatype EmailRequest = EmailRequest(to: Val, from: Val, subject: Val, html: Val, replyTo: Val)

  /** The options handed to `transporter.sendMail`; `replyTo` is present only
      when the request's is truthy. */
  datatype MailOptions = MailOptions(from: Val, to: Val, subject: Val, html: Val, replyTo: Option<Val>)

  datatype EmailError = NoEmailTransport | SendGridThrew | SmtpRejected

  /** How a `sendEmail` call ends: the SendGrid wrapper's attempt (which
      resolved), the options the transporter accepted, or a rejection. */
  datatype EmailCall =
    | ViaSendGrid(attempt: SendEmail.Attempt)
    | ViaSmtp(options: MailOptions)
    | Threw(reason: EmailError)

  function SmtpOptions(req: EmailRequest): MailOptions {
    MailOptions(req.from, req.to, req.subject, req.html,
                if Truthy(req.replyTo) then Some(req.replyTo) else None)
  }

  /** `sendEmail(req)`. `sendgrid` is SendGrid's answer to the message and
      `smtpOk` whether the transporter accepted its mail. */
  function SendEmailCall(cfg: Config, req: EmailRequest, sendgrid: SendEmail.Provider, smtpOk: bool): (r: EmailCall)
    ensures r.ViaSendGrid? ==> SelectBackend(cfg) == SendGrid
    ensures r.ViaSmtp? ==> SelectBackend(cfg) == Smtp && smtpOk
    ensures r == Threw(NoEmailTransport) <==> SelectBackend(cfg) == NoTransport
    ensures r == Threw(SendGridThrew) <==>
              SelectBackend(cfg) == SendGrid && sendgrid == SendEmail.Rejected(SendEmail.NullishError)
    ensures r == Threw(SmtpRejected) <==> SelectBackend(cfg) == Smtp && !smtpOk
    ensures r.ViaSendGrid? ==>
              r.attempt == SendEmail.SendSimpleEmail(
                SendEmail.EmailParams(req.to, req.subject, req.html, req.from),
                cfg.env.sendgridSenderEmail, sendgrid)
    ensures r.ViaSendGrid? ==>
              && r.attempt.message.to == req.to
              && r.attempt.message.subject == req.subject
              && r.attempt.message.html == req.html
              && (Truthy(req.from) ==> r.attempt.message.from == req.from)
              && (!Truthy(req.from) ==> r.attempt.message.from == cfg.env.sendgridSenderEmail)
    ensures r.ViaSendGrid? ==> (r.attempt.call.result.Ok? <==> sendgrid.Accepted?)
    ensures r.ViaSmtp? ==>
              && r.options.to == req.to && r.options.from == req.from
              && r.options.subject == req.subject && r.options.html == req.html
    ensures r.ViaSmtp? ==> (r.options.replyTo.Some? <==> Truthy(req.replyTo))
    ensures r.ViaSmtp? && Truthy(req.replyTo) ==> r.options.replyTo == Some(req.replyTo)
  {
    match SelectBackend(cfg)
    case SendGrid =>
      var attempt := SendEmail.SendSimpleEmail(
        SendEmail.EmailParams(req.to, req.subject, req.html, req.from),
        cfg.env.sendgridSenderEmail, sendgrid);
      if attempt.call.Throws? then Threw(SendGridThrew) else ViaSendGrid(attempt)
    case Smtp =>
      if smtpOk then ViaSmtp(SmtpOptions(req)) else Threw(SmtpRejected)
    case NoTransport =>
      Threw(NoEmailTransport)
  }

  /** A SendGrid failure that is not a nullish rejection still resolves: the
      caller sees a returned `{ok: false}` value, not an exception. */
  lemma SendGridFailureResolves(cfg: Config, req: EmailRequest, body: Option<string>, message: Val, smtpOk: bool)
    requires SelectBackend(cfg) == SendGrid
    ensures var r := SendEmailCall(cfg, req, SendEmail.Rejected(SendEmail.ErrorObject(body, message)), smtpOk);
            r.ViaSendGrid? && r.attempt.call.Resolves? && r.attempt.call.result.NotOk?
  {
  }
}

=== FILE: scenarios.dfy ===
/**
 Concrete ticks: one wish due at 09:00 with both channels, the same wish
 without a phone number, and the 09:01 boundary of the 09:00 window.
 */
module Scenarios {
  import opened JsValues
  import opened Window
  import opened Store
  import SendEmail
  import opened Mailer
  import opened Dispatcher

  const Day: int := 19875
  const NineAm: nat := 9 * 3600

  const Owner: User := User(Str("Asha"), Str("asha@x.com"), Str("+15550001"), "hash")

  function Wish(mobile: Val, time: nat): Event {
    Event(Str("Ravi"), Str("Birthday"), Some(Day), Some(time), mobile, Str("a@x.com"),
          Str("Happy birthday!"), 1, None)
  }

  function StoreWith(e: Event): Db {
    Db(map[1 := Owner], map[7 := e], 2, 8)
  }

  /** Twilio configured; no SendGrid module; SMTP credentials set. */
  const SmtpConfig: Config :=
    Config(Env(Undefined, Undefined, Str("bot@x.com"), Str("pw"), Undefined,
               Str("sid"), Str("auth"), Str("+15559999")), false, true)

  const AllSucceed: Outcomes :=
    Outcomes(false, _ => true, _ => SendEmail.Accepted(202), _ => true, _ => true)

  /** Both channels are tried and succeed at 09:00:xx, and the wish is marked. */
  lemma BothChannelsAtNine()
    ensures var db := StoreWith(Wish(Str("+15551234"), NineAm));
            var now := Clock(Day, 540, 1000);
            && 7 in Due(db, now)
            && Deliver(JoinRow(db, 7), SmtpConfig, AllSucceed).sms == Succeeded
            && Deliver(JoinRow(db, 7), SmtpConfig, AllSucceed).email == Succeeded
            && Dispatch(db, now, SmtpConfig, AllSucceed).events[7].sentAt == Some(1000)
  {
  }

  /** Without a phone number only the email is tried; its result alone
      decides whether the wish is marked. */
  lemma EmailOnlyWish(smtpOk: bool)
    ensures var db := StoreWith(Wish(Str(""), NineAm));
            var o := AllSucceed.(smtp := _ => smtpOk);
            var now := Clock(Day, 540, 1000);
            && Deliver(JoinRow(db, 7), SmtpConfig, o).sms == NotAttempted
            && (Dispatch(db, now, SmtpConfig, o).events[7].sentAt.Some? <==> smtpOk)
  {
  }

  /** A wish at 09:01:00 is outside the 09:00 window and inside the 09:01 one. */
  lemma NineOhOneBoundary()
    ensures var db := StoreWith(Wish(Str("+15551234"), NineAm + 60));
            && 7 !in Due(db, Clock(Day, 540, 0))
            && 7 in Due(db, Clock(Day, 541, 0))
  {
  }
}

=== FILE: send_email.dfy ===
/**
 The SendGrid wrapper `sendSimpleEmail` (server/sendEmail.js): builds the
 message, hands it to the provider and folds the provider's answer into an
 `{ok, status}` / `{ok: false, error}` value instead of throwing.

 The provider call `sgMail.send` is not modelled; its answer for the message
 is a parameter of type `Provider`.
 */
module SendEmail {
  import opened JsValues

  /** The fields `sendSimpleEmail` takes. */
  datatype EmailParams = EmailParams(to: Val, subject: Val, html: Val, from: Val)

  /** The message object handed to the provider. */
  datatype Message = Message(to: Val, from: Val, subject: Val, html: Val)

  /** What a provider call rejected with: `null`/`undefined`, or an error
      object whose `response.body` may be present (`body`, its text; the
      empty text stands for a falsy body) and whose `message` may be set. */
  datatype Rejection =
    | NullishError
    | ErrorObject(body: Option<string>, message: Val)

  /** The provider's answer: resolved with a status code, or rejected. */
  datatype Provider = Accepted(statusCode: int) | Rejected(err: Rejection)

  /** The normalised `error` field of a failure result. */
  datatype ErrorPayload =
    | ResponseBody(body: string)
    | ErrorMessage(message: string)
    | WholeError(err: Rejection)

  /** The value `sendSimpleEmail` resolves with. */
  datatype SimpleResult = Ok(status: int) | NotOk(error: ErrorPayload)

  /** A call either resolves with a `SimpleResult` or rejects; the only way it
      rejects is the catch block itself failing on a nullish error. */
  datatype Call = Resolves(result: SimpleResult) | Throws

  /** The message handed to the provider, and how the call ended. */
  datatype Attempt = Attempt(message: Message, call: Call)

  /** The message: `from` falls back to SENDGRID_SENDER_EMAIL when the caller's
      is falsy; the other fields pass through. */
  function BuildMessage(p: EmailParams, senderEnv: Val): (m: Message)
    ensures m.to == p.to && m.subject == p.subject && m.html == p.html
    ensures Truthy(p.from) ==> m.from == p.from
    ensures !Truthy(p.from) ==> m.from == senderEnv
    ensures Truthy(m.from) <==> Truthy(p.from) || Truthy(senderEnv)
  {
    Message(p.to, Or(p.from, senderEnv), p.subject, p.html)
  }

  /** `err.response.body` tested for truthiness. */
  predicate HasBody(e: Rejection)
    requires e.ErrorObject?
  {
    e.body.Some? && e.body.value != ""
  }

  /** The catch block's normalisation of a non-nullish error: the response
      body if it is truthy, else a truthy `err.message`, else the error. */
  function Normalise(e: Rejection): (r: ErrorPayload)
    requires e.ErrorObject?
    ensures r.ResponseBody? <==> HasBody(e)
    ensures r.ResponseBody? ==> r.body == e.body.value
    ensures r.ErrorMessage? <==> !HasBody(e) && Truthy(e.message)
    ensures r.ErrorMessage? ==> Str(r.message) == e.message
    ensures r.WholeError? ==> r.err == e
  {
    if HasBody(e) then ResponseBody(e.body.value)
    else if Truthy(e.message) then ErrorMessage(e.message.s)
    else WholeError(e)
  }

  /** One call of `sendSimpleEmail`, with SENDGRID_SENDER_EMAIL `senderEnv`,
      whose provider answers `answer` to the message it is given. */
  function SendSimpleEmail(p: EmailParams, senderEnv: Val, answer: Provider): (r: Attempt)
    ensures r.message == BuildMessage(p, senderEnv)
    ensures answer.Accepted? ==> r.call == Resolves(Ok(answer.statusCode))
    ensures r.call.Throws? <==> answer == Rejected(NullishError)
    ensures answer.Rejected? && answer.err.ErrorObject? ==>
              r.call == Resolves(NotOk(Normalise(answer.err)))
    ensures r.call.Resolves? && r.call.result.Ok? <==> answer.Accepted?
  {
    var call :=
      match answer
      case Accepted(code) => Resolves(Ok(code))
      case Rejected(err) =>
        if err.NullishError? then Throws else Resolves(NotOk(Normalise(err)));
    Attempt(BuildMessage(p, senderEnv), call)
  }
}

=== FILE: store.dfy ===
/**
 The users and events tables and the route handlers of server/index.js that
 change them: user registration, event creation, event update, event
 deletion and profile update. Each route is a transition from a store to a
 response status and a new store.

 Ids are SERIAL columns: the store keeps the next id of each table, and
 `Valid` says every existing id is below it. Password hashing and token
 issuance are not modelled; `hash` stands for bcrypt. Parsing of DATE and
 TIME input by the database is a parameter (`Parsers`); a string it rejects
 makes the query fail, which every route answers with status 500.
 */
module Store {
  import opened JsValues

  datatype User = User(name: Val, email: Val, phone: Val, password: string)

  /** An event row. `date` is a day number and `time` the seconds of the day;
      either may be NULL after an update. `kind` is the `type` column. */
  datatype Event = Event(
    name: Val,
    kind: Val,
    date: Option<int>,
    time: Option<nat>,
    mobile: Val,
    email: Val,
    message: Val,
    owner: int,
    sentAt: Option<int>)

  datatype Db = Db(users: map<int, User>, events: map<int, Event>, nextUser: int, nextEvent: int)

  /** The SERIAL counters are ahead of every id in use. */
  predicate Valid(db: Db) {
    && (forall id :: id in db.users ==> id < db.nextUser)
    && (forall id :: id in db.events ==> id < db.nextEvent)
  }

  /** How the database reads DATE and TIME literals. */
  datatype Parsers = Parsers(date: string -> Option<int>, time: string -> Option<nat>)

  /** A column value after the database has converted the parameter:
      `Invalid` is a conversion error. */
  datatype Column<T> = Column(value: Option<T>) | Invalid

  function DateColumn(v: Val, p: Parsers): Column<int> {
    match v
    case Str(s) => if p.date(s).Some? then Column(p.date(s)) else Invalid
    case _ => Column(None)
  }

  function TimeColumn(v: Val, p: Parsers): Column<nat> {
    match v
    case Str(s) => if p.time(s).Some? then Column(p.time(s)) else Invalid
    case _ => Column(None)
  }

  datatype Response = Response(status: int, db: Db)

  // ------------------------------------------------------------------
  // Users

  datatype Registration = Registration(name: Val, email: Val, phone: Val, password: Val)

  predicate EmailTaken(users: map<int, User>, email: Val) {
    exists id :: id in users && users[id].email == email
  }

  /** POST /api/userregister. */
  function Register(db: Db, req: Registration, hash: string -> string): (r: Response)
    requires Valid(db)
    ensures Valid(r.db)
    ensures r.status in {400, 409, 201}
    ensures r.status == 400 <==>
              !Truthy(req.name) || !Truthy(req.email) || !Truthy(req.phone) || !Truthy(req.password)
    ensures r.status == 409 <==> r.status != 400 && EmailTaken(db.users, req.email)
    ensures r.status != 201 ==> r.db == db
    ensures r.status == 201 ==>
              && db.nextUser !in db.users
              && r.db.users == db.users[db.nextUser := User(req.name, req.email, req.phone, hash(req.password.s))]
              && |r.db.users| == |db.users| + 1
              && r.db.events == db.events
              && r.db.nextEvent == db.nextEvent
  {
    if !Truthy(req.name) || !Truthy(req.email) || !Truthy(req.phone) || !Truthy(req.password) then
      Response(400, db)
    else if EmailTaken(db.users, req.email) then
      Response(409, db)
    else
      var u := User(req.name, req.email, req.phone, hash(req.password.s));
      Response(201, db.(users := db.users[db.nextUser := u], nextUser := db.nextUser + 1))
  }

  datatype ProfileEdit = ProfileEdit(name: Val, email: Val, phone: Val)

  /** PUT /api/myprofile: overwrites name, email and phone of the caller's
      row with no validation and no duplicate-email check; answers 200 even
      when no row has the caller's id. */
  function UpdateProfile(db: Db, caller: int, req: ProfileEdit): (r: Response)
    ensures r.status == 200
    ensures r.db.events == db.events && r.db.users.Keys == db.users.Keys
    ensures r.db.nextUser == db.nextUser && r.db.nextEvent == db.nextEvent
    ensures forall id :: id in db.users && id != caller ==> r.db.users[id] == db.users[id]
    ensures caller in db.users ==>
              r.db.users[caller] ==
                User(Stored(req.name), Stored(req.email), Stored(req.phone), db.users[caller].password)
    ensures Valid(db) ==> Valid(r.db)
  {
    if caller in db.users then
      var u := db.users[caller];
      Response(200, db.(users := db.users[caller := u.(name := Stored(req.name), email := Stored(req.email), phone := Stored(req.phone))]))
    else
      Response(200, db)
  }

  /** No two users share a truthy email address. */
  predicate UniqueEmails(users: map<int, User>) {
    forall a, b :: a in users && b in users && a != b && Truthy(users[a].email) ==>
      users[a].email != users[b].email
  }

  /** A registration handled on its own never introduces a duplicate email. */
  lemma RegisterKeepsEmailsUnique(db: Db, req: Registration, hash: string -> string)
    requires Valid(db) && UniqueEmails(db.users)
    ensures UniqueEmails(Register(db, req, hash).db.users)
  {
    var r := Register(db, req, hash);
    if r.status == 201 {
      var users := r.db.users;
      forall a, b | a in users && b in users && a != b && Truthy(users[a].email)
        ensures users[a].email != users[b].email
      {
        if a == db.nextUser {
          assert b in db.users;
        } else if b == db.nextUser {
          assert a in db.users && users[a] == db.users[a];
        }
      }
    }
  }

  /** The profile route can make two users share an email, which a
      registration handled on its own never does. */
  lemma UpdateProfileCanDuplicateEmails()
    ensures exists db: Db, caller: int, req: ProfileEdit ::
              Valid(db) && UniqueEmails(db.users) && !UniqueEmails(UpdateProfile(db, caller, req).db.users)
  {
    var mail := Str("a@x.com");
    var db := Db(map[1 := User(Str("A"), mail, Str("1"), "h"), 2 := User(Str("B"), Str("b@x.com"), Str("2"), "h")], map[], 3, 1);
    var req := ProfileEdit(Str("B"), mail, Str("2"));
    var users := UpdateProfile(db, 2, req).db.users;
    assert users[1].email == users[2].email;
  }

  // ------------------------------------------------------------------
  // Events

  /** The JSON body of an event create or update. */
  datatype EventForm = EventForm(
    name: Val, kind: Val, date: Val, time: Val, mobile: Val, email: Val, message: Val)

  /** POST /api/event, by the authenticated user `caller`. */
  function CreateEvent(db: Db, caller: int, f: EventForm, p: Parsers): (r: Response)
    requires Valid(db)
    ensures Valid(r.db)
    ensures r.status in {400, 500, 201}
    ensures r.status == 400 <==> !Truthy(f.name) || !Truthy(f.date) || !Truthy(f.time)
    ensures r.status == 500 <==>
              r.status != 400 && (DateColumn(f.date, p).Invalid? || TimeColumn(f.time, p).Invalid?)
    ensures r.status != 201 ==> r.db == db
    ensures r.status == 201 ==>
              && db.nextEvent !in db.events
              && r.db.events.Keys == db.events.Keys + {db.nextEvent}
              && |r.db.events| == |db.events| + 1
              && (forall id :: id in db.events ==> r.db.events[id] == db.events[id])
              && r.db.events[db.nextEvent].owner == caller
              && r.db.events[db.nextEvent].sentAt == None
              && r.db.events[db.nextEvent].name == f.name
              && r.db.events[db.nextEvent].kind == Stored(f.kind)
              && r.db.events[db.nextEvent].date == p.date(f.date.s)
              && r.db.events[db.nextEvent].time == p.time(f.time.s)
              && r.db.events[db.nextEvent].date.Some?
              && r.db.events[db.nextEvent].time.Some?
              && r.db.events[db.nextEvent].mobile == Stored(f.mobile)
              && r.db.events[db.nextEvent].email == Stored(f.email)
              && r.db.events[db.nextEvent].message == Stored(f.message)
              && r.db.users == db.users
  {
    if !Truthy(f.name) || !Truthy(f.date) || !Truthy(f.time) then
      Response(400, db)
    else
      match (DateColumn(f.date, p), TimeColumn(f.time, p))
      case (Column(d), Column(t)) =>
        var e := Event(f.name, Stored(f.kind), d, t, Stored(f.mobile), Stored(f.email), Stored(f.message), caller, None);
        Response(201, db.(events := db.events[db.nextEvent := e], nextEvent := db.nextEvent + 1))
      case _ =>
        Response(500, db)
  }

  /** PUT /api/event/:id. The route is not authenticated and does not check
      required fields: absent fields become NULL. */
  function UpdateEvent(db: Db, id: int, f: EventForm, p: Parsers): (r: Response)
    ensures r.status in {500, 404, 200}
    ensures r.status == 500 <==> DateColumn(f.date, p).Invalid? || TimeColumn(f.time, p).Invalid?
    ensures r.status == 404 <==> r.status != 500 && id !in db.events
    ensures r.status != 200 ==> r.db == db
    ensures r.db.users == db.users && r.db.events.Keys == db.events.Keys
    ensures r.db.nextUser == db.nextUser && r.db.nextEvent == db.nextEvent
    ensures forall k :: k in db.events && k != id ==> r.db.events[k] == db.events[k]
    ensures r.status == 200 ==>
              && r.db.events[id].sentAt == db.events[id].sentAt
              && r.db.events[id].owner == db.events[id].owner
              && r.db.events[id].name == Stored(f.name)
              && r.db.events[id].kind == Stored(f.kind)
              && r.db.events[id].date == DateColumn(f.date, p).value
              && r.db.events[id].time == TimeColumn(f.time, p).value
              && r.db.events[id].mobile == Stored(f.mobile)
              && r.db.events[id].email == Stored(f.email)
              && r.db.events[id].message == Stored(f.message)
    ensures Valid(db) ==> Valid(r.db)
  {
    match (DateColumn(f.date, p), TimeColumn(f.time, p))
    case (Column(d), Column(t)) =>
      if id in db.events then
        var e := db.events[id];
        var e' := e.(name := Stored(f.name), kind := Stored(f.kind), date := d, time := t,
                     mobile := Stored(f.mobile), email := Stored(f.email), message := Stored(f.message));
        Response(200, db.(events := db.events[id := e']))
      else
        Response(404, db)
    case _ =>
      Response(500, db)
  }

  /** DELETE /api/event/:id (not authenticated either). */
  function DeleteEvent(db: Db, id: int): (r: Response)
    ensures r.status in {404, 200}
    ensures r.status == 404 <==> id !in db.events
    ensures r.status == 404 ==> r.db == db
    ensures r.db.events.Keys == db.events.Keys - {id}
    ensures forall k :: k in r.db.events ==> r.db.events[k] == db.events[k]
    ensures r.db.users == db.users && r.db.nextUser == db.nextUser && r.db.nextEvent == db.nextEvent
    ensures Valid(db) ==> Valid(r.db)
  {
    if id in db.events then Response(200, db.(events := db.events - {id}))
    else Response(404, db)
  }
}

=== FILE: window.dfy ===
/**
 The dispatch window of the per-minute job (server/index.js): at minute-of-day
 `m` the selector accepts event times `t` (seconds of the day) with
 `HH:mm:00 <= t < HH':mm':00`, where `HH':mm'` is `HH:mm` plus one minute
 formatted on a 24-hour clock, so the bound wraps to 00:00 after 23:59.
 */
module Window {

  const MinutesPerDay: nat := 1440
  const SecondsPerMinute: nat := 60

  /** A minute of the day, `HH * 60 + mm`. */
  type Minute = m: int | 0 <= m < 1440

  /** The minute after `m` on the clock face, wrapping at midnight, for a
      server process whose local zone has no daylight-saving change that day. */
  function NextMinute(m: Minute): Minute {
    (m + 1) % MinutesPerDay
  }

  function WindowStart(m: Minute): nat {
    m * SecondsPerMinute
  }

  function WindowEnd(m: Minute): nat {
    NextMinute(m) * SecondsPerMinute
  }

  /** The selector's `time >= $2 AND time < $3`. */
  predicate InWindow(t: nat, m: Minute) {
    WindowStart(m) <= t < WindowEnd(m)
  }

  /** A time lies in the window of minute `m` exactly when it falls within
      that minute and `m` is not 23:59, whose window is empty. */
  lemma InWindowIff(t: nat, m: Minute)
    ensures InWindow(t, m) <==> m < MinutesPerDay - 1 && t / SecondsPerMinute == m
  {
    if m < MinutesPerDay - 1 {
      assert WindowEnd(m) == m * SecondsPerMinute + SecondsPerMinute;
      if InWindow(t, m) {
        DivBetween(t, m);
      }
      if t / SecondsPerMinute == m {
        assert t / SecondsPerMinute * SecondsPerMinute <= t < t / SecondsPerMinute * SecondsPerMinute + SecondsPerMinute;
      }
    } else {
      assert WindowEnd(m) == 0;
    }
  }

  lemma DivBetween(t: nat, m: nat)
    requires m * SecondsPerMinute <= t < m * SecondsPerMinute + SecondsPerMinute
    ensures t / SecondsPerMinute == m
  {
    var q := t / SecondsPerMinute;
    assert q * SecondsPerMinute <= t < q * SecondsPerMinute + SecondsPerMinute;
  }

  /** No event time is selected at 23:59. */
  lemma LastMinuteWindowEmpty(t: nat)
    ensures !InWindow(t, MinutesPerDay - 1)
  {
    InWindowIff(t, MinutesPerDay - 1);
  }

  /** Windows of different minutes are disjoint: a time is selected in at most
      one minute of a day. */
  lemma WindowsDisjoint(t: nat, m1: Minute, m2: Minute)
    requires InWindow(t, m1) && InWindow(t, m2)
    ensures m1 == m2
  {
    InWindowIff(t, m1);
    InWindowIff(t, m2);
  }

  /** Every time before 23:59:00 is selected in its own minute. */
  lemma EarlierTimesHaveAWindow(t: nat)
    requires t < (MinutesPerDay - 1) * SecondsPerMinute
    ensures 0 <= t / SecondsPerMinute < MinutesPerDay - 1
    ensures InWindow(t, t / SecondsPerMinute)
  {
    InWindowIff(t, t / SecondsPerMinute);
  }
}
